=== FILE: README.md ===
# go-test1 in Dafny

`go-test1` runs a single Go test by name. It takes the name, with or without
the leading `Test`, and normalises it. It walks the current directory in
walk order and finds the first `*_test.go` regular file with a line matching
`func NAME\(.* \*testing.T\)`. It then replaces itself with
`go test -v -run "^NAME$"`, run in that file's directory. This project models
the decision-making of `src/main.rs` as pure Dafny and proves what the
program promises about it.

Modules, following the program's structure:

- `Strings`: `starts_with`, `ends_with`, and "occurs at index i".
- `Regex`: the fragment of regular-expression syntax the program writes.
  That is literals (metacharacters escaped), `.`, `.*`, `^` and `$`.
  - `Render` prints a pattern as text and `Parse` reads text back.
  - `Matches` is the unanchored search of a line matcher, where `.` never
    matches a line terminator.
  - This module defines what the two pattern strings mean.
- `TestName`: the normalised name and the three strings built from it.
  These are the search pattern, the announced command line and the
  `-run` filter.
- `Paths`: a path as components, its displayed text, `PathBuf::pop`, and
  the `_test.go` suffix test.
- `Sink`: `SimpleSink` and its `new`, `reset` and `matched`.
- `Searcher`: `search_path` as the program drives it.
  - It reads lines in order and reports the first matching line to the sink.
  - It stops when the sink says so.
  - It returns an error when the file cannot be opened, or when reading
    fails before a match is found.
- `Locator`: `find_file_for_test`.
  - The walk is a `seq<Entry>`. An entry is a walk error, or a path with an
    optional file type.
  - The file system is a map from path to `FileData`: the lines that can be
    read, and whether reading fails after them. A path missing from the map
    cannot be opened.
  - The compiled pattern is a `string -> bool` line matcher.
  - `Locate` is the recursive reference definition (first accepted entry
    wins). `FindFileForTest` is the source's loop with its sink, proved
    equal to it.
- `Runner`: `main` as a function `Invoke`. It returns the lines printed on
  standard output and how the run ends: the command the process is replaced
  by, or the error returned.
- `Scenarios`: whole runs on a small concrete tree.

Inputs the program gets from its environment are parameters of the model:
the command-line name, the directory walk, the file contents, and whether
`exec` fails.

The program has no log file that copies the test output (a tee), and no
`--log` or `--count` option. Its `main` `exec`s `go test` directly, and the
model follows that code.

The search pattern leaves the `.` in `testing.T` unescaped, so any one
character may stand there. `TestName.DeclPatternMeaning` states the pattern's
meaning with that looseness included.

## Model

| member | source | states |
|---|---|---|
| `TestName.Normalize` | src/main.rs:33-40 | The result always starts with `Test` and ends with the user's name. It equals the input exactly when the input already starts with `Test`; otherwise it is exactly four characters longer, which with the prefix and suffix makes it `Test` followed by the name. |
| `TestName.NormalizeContractExact` | src/main.rs:38 | For a name without the prefix, the only string `Normalize`'s contract allows is `Test` + name. |
| `TestName.NormalizeIdempotent` | src/main.rs:35-39 | Normalising an already normalised name changes nothing. |
| `TestName.NormalizeSameTest` | src/main.rs:35-39 | Two inputs give the same test name iff they are equal, or one is the other with `Test` written out and the other lacks it. So `Bar` and `TestBar` select the same test. |
| `TestName.SearchPattern` | src/main.rs:57 | No contract of its own: the text `func NAME\(.* \*testing.T\)`. Its meaning is stated by `TestName.SearchPatternParses` and `TestName.DeclPatternMeaning`, and its refusal for names with a line terminator by `Runner.NewlineNameRejected`. |
| `TestName.SearchPatternParses` | src/main.rs:57 | For a name without regex metacharacters or line terminators, the search pattern text is well-formed regex. It denotes `func NAME(`, then `.*`, then ` *testing`, one arbitrary character, and `T)`. |
| `TestName.DeclPatternMeaning` | src/main.rs:57 | On a single line, the search pattern matches exactly the lines that contain `func NAME(` followed later by ` *testing`, any one character, and `T)`. |
| `TestName.NoParamNoMatch` | src/main.rs:57 | A line without ` *testing`, such as a declaration missing the `*testing.T` parameter, never matches the search pattern. |
| `TestName.RunFilter` | src/main.rs:48 | No contract of its own: the text `^NAME$`. Its meaning is stated by `TestName.RunFilterParses` and `TestName.FilterSelectsExactly`. |
| `TestName.TestArgs` | src/main.rs:48 | The arguments given to `go` are four, the last being the run filter; `TestName.CommandLineAnnouncesExec` pins all four against the announced line. |
| `TestName.CommandLine` | src/main.rs:42 | No contract of its own: the `Command:` line. `TestName.CommandLineAnnouncesExec` states it spells the executed program and arguments. |
| `TestName.RunFilterParses` | src/main.rs:48 | For a name without regex metacharacters or line terminators, the `-run` argument `^NAME$` is well-formed regex and denotes start, the name literally, end. |
| `TestName.FilterSelectsExactly` | src/main.rs:48 | The anchored filter matches a test name iff that name equals the normalised name. |
| `TestName.CommandLineAnnouncesExec` | src/main.rs:42-48 | The printed `Command:` line is the shell spelling of the program and the four arguments that are executed, with the filter quoted. |
| `Regex.Parse` | src/main.rs:57 | No contract of its own: building the line matcher from the pattern text, with `None` standing for the build error. Its meaning is stated by `Regex.ParseRender` and `Regex.ParseRejectsNewline`. |
| `Regex.Matches` | src/main.rs:78-82 | No contract of its own: the compiled matcher's line test, a match starting at some position of the line. `Regex.MatchAnyRun`, `TestName.DeclPatternMeaning` and `TestName.FilterSelectsExactly` state what it accepts. |
| `Regex.LineMatcher` | src/main.rs:57-82 | No contract of its own: the compiled matcher as the line test `search_path` applies. `Runner.AcceptedIffDeclares` states what it accepts for the search pattern. |
| `Regex.ParseRender` | src/main.rs:57 | Every pattern of the modelled fragment without a literal line terminator reads back unchanged from its regex text (round trip). The text of any other pattern is refused, because the line matcher refuses a literal line terminator outside a bracket class. |
| `Regex.ParseRejectsNewline` | src/main.rs:57 | Within the modelled fragment, which has no bracket classes, pattern text holding a line terminator anywhere never builds a line matcher. The line matcher refuses a literal line terminator outside a bracket class. |
| `Regex.MatchAnyRun` | src/main.rs:57 | On a line without terminators, `.*` followed by a rest matches at `i` iff the rest matches at `i` or at some later position. |
| `Paths.Pop` | src/main.rs:46 | `pop` yields the parent: the parent's components plus the file name give back the path. The empty path is left alone. |
| `Paths.Display` | src/main.rs:45-75 | No contract of its own: the path text that `display()` prints and `to_string_lossy()` tests, components joined by `/`. `Paths.TestFileByName` states what the suffix test on it means. |
| `Paths.IsTestFile` | src/main.rs:75 | No contract of its own: `ends_with("_test.go")` on the path text. `Paths.TestFileByName` states what it means in terms of the file name. |
| `Paths.TestFileByName` | src/main.rs:75 | `ends_with("_test.go")` on the whole path text holds iff the last component ends with `_test.go`. The suffix has no `/`, so directory names cannot satisfy it. |
| `Sink.New` | src/main.rs:96 | A fresh sink has seen no match. |
| `Sink.Reset` | src/main.rs:98 | Reset clears the flag whatever the sink saw before, giving a fresh sink. |
| `Sink.Matched` | src/main.rs:104-111 | A matching line marks the sink found, and the reply `false` stops the search of that file. |
| `Searcher.SearchPath` | src/main.rs:78-85 | The sink ends found iff it was found before or some line of the openable file matches. Reading stops at the first matching line, and earlier lines do not match. An unopenable file gives `CannotOpen`. A read failure is reported only when no line matched first. |
| `Locator.IsCandidate` | src/main.rs:61-77 | No contract of its own: a walk entry with a known file type that is a regular file and whose path ends in `_test.go`. `Locator.FindFileForTest` and `Locator.LocateSkips` state how it steers the loop. |
| `Locator.Accepted` | src/main.rs:61-88 | No contract of its own: a candidate whose file opens and has a matching line. `Locator.Locate` is characterised by it and `Runner.AcceptedIffDeclares` gives its meaning for the search pattern. |
| `Locator.Locate` | src/main.rs:55-91 | `Some(p)` only when `p` is the path of the first entry in walk order that is a regular file, ends in `_test.go`, can be opened, and has a matching line. `None` iff no entry meets all of these. |
| `Locator.Consumed` | src/main.rs:59-88 | The number of entries pulled from the walk is at most its length. No entry before the last one pulled is accepted. If the walk was not exhausted, the last entry pulled is accepted. |
| `Locator.FindFileForTest` | src/main.rs:58-90 | The loop (reset the sink, skip walk errors, unknown or non-file types and names without the suffix, search, return on `found`) returns what `Locate` defines. The files searched are exactly the candidates among the entries pulled, in order, so none after the hit. |
| `Locator.LocateAppend` | src/main.rs:59-90 | Splitting the walk: a hit in the first part decides the result and the rest is never looked at. Otherwise the result is the rest's. |
| `Locator.LocateSkips` | src/main.rs:61-85 | Removing a non-accepted entry does not change the result. This covers a walk error, an unknown or non-file type, a name without the suffix, an unopenable file, and a file with no matching line. |
| `Locator.LocateStopsAtFirstHit` | src/main.rs:86-88 | Whatever follows the first accepted entry, the result is that entry's path. |
| `Locator.LocateIgnoresReadErrors` | src/main.rs:83-85 | Read errors are not fatal. Two file systems with the same paths and the same readable lines at every path give the same result, whether or not reading fails after those lines. |
| `Runner.AcceptedIffDeclares` | src/main.rs:57-88 | On files whose lines hold no terminator, the locator accepts an entry iff it is a `*_test.go` regular file with a line declaring the test. |
| `Runner.NotFound` | src/main.rs:44 | No contract of its own: the error `test not found: NAME`. `Runner.NotFoundIffNoDeclaration` states when the run ends with it. |
| `Runner.Invoke` | src/main.rs:33-51 | No contract of its own: all of `main`. It is pinned down by `Runner.InvokeByLocate` and `Runner.NewlineNameRejected`, and by the lemmas that follow. |
| `Runner.NewlineNameRejected` | src/main.rs:44-57 | A name holding a line terminator never reaches the search. Within the modelled fragment the terminator stands outside any bracket class, and the line matcher refuses it there. So the run ends with that error after the two announcements, and nothing is executed. |
| `Runner.InvokeByLocate` | src/main.rs:33-51 | For a plain name, the run first prints `Test name:` and `Command:`. If the locator finds nothing, the run fails with `test not found: NAME`. Otherwise it prints the found file and execs `go test -v -run ^NAME$` in the file's parent (or fails with the exec context). |
| `Runner.AnnouncedCommandIsRun` | src/main.rs:42-51 | When the process is replaced, the announced command line spells exactly the program and arguments executed. |
| `Runner.RunTargetsDeclaringFile` | src/main.rs:44-49 | When `go test` runs, it runs in the parent directory of the first walked `*_test.go` file that declares the normalised test. That file is the one announced. |
| `Runner.FirstDeclaringFileIsRun` | src/main.rs:44-51 | Conversely, when some walked test file declares the test, the run prints the three lines and execs `go test` in the directory of the first such file. |
| `Runner.RunFilterSelectsSearchedName` | src/main.rs:42-57 | The `-run` filter that is executed parses to the anchored pattern of the same normalised name the search used. It selects that name and no other. |
| `Runner.NotFoundIffNoDeclaration` | src/main.rs:44 | The run ends with `test not found: NAME` iff no walked `*_test.go` regular file declares the test. In that case only the two announcements are printed and nothing is executed. |
| `Scenarios.LocatePassesOverErrorsAndDirectories` | src/main.rs:59-88 | In a walk of directories, a walk error and `./pkg/foo_test.go`, any matcher accepting the file's line locates that file. |
| `Scenarios.FoundInPackage` | src/main.rs:33-51 | Asking for `Bar` when `pkg/foo_test.go` holds `func TestBar(t *testing.T) {}` prints `TestBar`, the command and the file, then runs `go test -v -run "^TestBar$"` in `./pkg`. |
| `Scenarios.NotFoundWithoutContextParameter` | src/main.rs:44-57 | Asking for `TestBar` when the only test file holds `func TestBar() {}` ends in `test not found: TestBar`, and nothing is executed. |

## Left out

- Argument parsing by clap (src/main.rs:18-31), including the "missing NAME" error. This is library surface; the model starts from the name string.
- The directory walk and its ignore-file rules (`ignore::Walk`). The walk is an arbitrary finite sequence of entries, and every law is proved for all such sequences.
- The regex crate beyond the fragment the program writes. `Parse` stands for compiling, but it accepts only literals, `.`, `.*`, `^` and `$`.
- Runner.Invoke: the run ends in the modelled pattern error when the search text uses syntax outside the fragment. That is an unescaped metacharacter other than `.`, `.*`, `^` or `$` (such as `+`, `-`, `|`, `(`, `[`), or a backslash before a character that is not a metacharacter (`\d`, or a backslash before a line terminator). The regex crate would compile many of these; for example, it compiles a bracket class holding a line terminator and drops the terminator from it. `PatternError` stands in for the crate's message. Names that stay inside the fragment (`Foo.*`, `Foo\+`) are searched as the crate would search them. Go test names are identifiers, so the other names do not arise in practice.
- Runner.RunTargetsDeclaringFile, Runner.FirstDeclaringFileIsRun, Runner.RunFilterSelectsSearchedName, Runner.NotFoundIffNoDeclaration: these are stated only for names without regex metacharacters or line terminators (the latter covered by `Runner.NewlineNameRejected`) and for files whose lines hold no line terminator. In other cases the search pattern does not mean "declares NAME".
- Details of `grep_searcher`: binary-file detection, encodings, line terminators, and `to_string_lossy`. A file is given as its already-split lines, and path text is taken as exact.
- `exec` itself is an operating-system call. Its failure is the `execFails` parameter, and only the context string is modelled, not the underlying error.
- Output on standard error (src/main.rs:64, 84) is left out. Standard output lines (41, 42, 45) are modelled.

=== FILE: locator.dfy ===
/**
 * `find_file_for_test`: walk the tree and return the first regular file
 * whose name ends in `_test.go` and which the searcher reports as holding a
 * matching line. The walk is an abstract sequence of entries, the file
 * system maps paths to contents, and the compiled pattern is a line matcher.
 */
module Locator {
  import opened Wrappers
  import opened Paths
  import opened Sink
  import opened Searcher

  datatype FileType = File | Dir | Symlink

  /** One item produced by the directory walk. `fileType` is `None` when it cannot be determined. */
  datatype Entry =
    | WalkError(message: string)
    | Dirent(path: Path, fileType: Option<FileType>)

  /** What the searcher can read at each path; a path outside the map cannot be opened. */
  type FileSystem = map<Path, FileData>

  function Contents(fs: FileSystem, p: Path): Option<FileData>
  {
    if p in fs then Some(fs[p]) else None
  }

  /** An entry the locator hands to the searcher: a regular file named `*_test.go`. */
  predicate IsCandidate(e: Entry)
  {
    e.Dirent? && e.fileType == Some(File) && IsTestFile(e.path)
  }

  /** An entry the locator would stop at: a candidate holding a matching line. */
  predicate Accepted(fs: FileSystem, matches: string -> bool, e: Entry)
  {
    IsCandidate(e) && e.path in fs && HasMatch(matches, fs[e.path].lines)
  }

  /** `k` is the first accepted position of the walk. */
  predicate IsFirstAccepted(walk: seq<Entry>, fs: FileSystem, matches: string -> bool, k: int)
  {
    && 0 <= k < |walk|
    && Accepted(fs, matches, walk[k])
    && forall j :: 0 <= j < k ==> !Accepted(fs, matches, walk[j])
  }

  /**
   * Reference definition: the path of the first accepted entry in walk
   * order, or `None` when the walk holds none.
   */
  function Locate(walk: seq<Entry>, fs: FileSystem, matches: string -> bool): (r: Option<Path>)
    ensures r.Some? ==> exists k :: IsFirstAccepted(walk, fs, matches, k) && r.value == walk[k].path
    ensures r.None? <==> forall k :: 0 <= k < |walk| ==> !Accepted(fs, matches, walk[k])
  {
    if |walk| == 0 then None
    else if Accepted(fs, matches, walk[0]) then Some(walk[0].path)
    else
      var r := Locate(walk[1..], fs, matches);
      assert forall k :: 1 <= k < |walk| ==> walk[k] == walk[1..][k - 1];
      if r.Some? then
        var k :| IsFirstAccepted(walk[1..], fs, matches, k) && r.value == walk[1..][k].path;
        assert IsFirstAccepted(walk, fs, matches, k + 1);
        r
      else r
  }

  /** The paths the locator searches while consuming `entries`. */
  function CandidatePaths(entries: seq<Entry>): seq<Path>
  {
    if |entries| == 0 then []
    else
      var last := entries[|entries| - 1];
      CandidatePaths(entries[..|entries| - 1]) + (if IsCandidate(last) then [last.path] else [])
  }

  /** How many walk entries the locator consumes before it returns. */
  function Consumed(walk: seq<Entry>, fs: FileSystem, matches: string -> bool): (n: nat)
    ensures n <= |walk|
    ensures forall j :: 0 <= j < n - 1 ==> !Accepted(fs, matches, walk[j])
    ensures n < |walk| ==> 0 < n && Accepted(fs, matches, walk[n - 1])
  {
    if |walk| == 0 then 0
    else if Accepted(fs, matches, walk[0]) then 1
    else
      var n := Consumed(walk[1..], fs, matches);
      assert forall j :: 1 <= j < |walk| ==> walk[j] == walk[1..][j - 1];
      1 + n
  }

  /**
   * The loop of `find_file_for_test`: reset the sink, skip walk errors,
   * entries of unknown or non-file type and names without the suffix, search
   * the rest, and return the first whose search set the sink. `searched`
   * lists the files handed to the searcher, in order.
   */
  method FindFileForTest(walk: seq<Entry>, fs: FileSystem, matches: string -> bool)
    returns (found: Option<Path>, searched: seq<Path>)
    ensures found == Locate(walk, fs, matches)
    ensures searched == CandidatePaths(walk[..Consumed(walk, fs, matches)])
  {
    var sink := New();
    searched := [];
    for i := 0 to |walk|
      invariant searched == CandidatePaths(walk[..i])
      invariant Locate(walk[..i], fs, matches) == None
    {
      LoopStep(walk, i, fs, matches);
      sink := Reset(sink);
      var entry := walk[i];
      if entry.WalkError? {
        continue;
      }
      if entry.fileType.Some? {
        if entry.fileType.value != File {
          continue;
        }
      } else {
        continue;
      }
      if !IsTestFile(entry.path) {
        continue;
      }
      var error, scanned;
      sink, error, scanned := SearchPath(matches, Contents(fs, entry.path), sink);
      searched := searched + [entry.path];
      if sink.found {
        return Some(entry.path), searched;
      }
    }
    LoopEnd(walk, fs, matches);
    return None, searched;
  }

  /** What one more entry does to the locator's state. */
  lemma LoopStep(walk: seq<Entry>, i: int, fs: FileSystem, matches: string -> bool)
    requires 0 <= i < |walk|
    requires Locate(walk[..i], fs, matches) == None
    ensures CandidatePaths(walk[..i + 1])
      == CandidatePaths(walk[..i]) + (if IsCandidate(walk[i]) then [walk[i].path] else [])
    ensures Accepted(fs, matches, walk[i]) ==>
      Locate(walk, fs, matches) == Some(walk[i].path) && Consumed(walk, fs, matches) == i + 1
    ensures !Accepted(fs, matches, walk[i]) ==> Locate(walk[..i + 1], fs, matches) == None
  {
    assert walk[..i + 1][..i] == walk[..i];
    assert walk[..i + 1] == walk[..i] + [walk[i]];
    assert walk == walk[..i + 1] + walk[i + 1..];
    LocateAppend(walk[..i], [walk[i]], fs, matches);
    assert [walk[i]][1..] == [];
    if Accepted(fs, matches, walk[i]) {
      LocateAppend(walk[..i + 1], walk[i + 1..], fs, matches);
      assert IsFirstAccepted(walk, fs, matches, i);
    }
  }

  /** A walk exhausted without a hit was consumed entirely and yields `None`. */
  lemma LoopEnd(walk: seq<Entry>, fs: FileSystem, matches: string -> bool)
    requires Locate(walk[..|walk|], fs, matches) == None
    ensures Locate(walk, fs, matches) == None
    ensures Consumed(walk, fs, matches) == |walk|
  {
    assert walk[..|walk|] == walk;
  }

  // ---------------------------------------------------------------------
  // Laws of the locator

  /**
   * The walk can be split anywhere: a hit in the first part decides the
   * result and the rest is never looked at; otherwise the result is that of
   * the rest.
   */
  lemma {:induction false} LocateAppend(a: seq<Entry>, b: seq<Entry>, fs: FileSystem, matches: string -> bool)
    ensures Locate(a + b, fs, matches) == if Locate(a, fs, matches).Some? then Locate(a, fs, matches) else Locate(b, fs, matches)
  {
    if |a| == 0 {
      assert a + b == b;
    } else {
      assert (a + b)[0] == a[0];
      assert (a + b)[1..] == a[1..] + b;
      LocateAppend(a[1..], b, fs, matches);
    }
  }

  /**
   * An entry that is not accepted — a walk error, an entry whose type is
   * unknown or not a regular file, a name without the suffix, a file that
   * cannot be opened or holds no matching line — can be removed from the
   * walk without changing the result.
   */
  lemma LocateSkips(a: seq<Entry>, e: Entry, b: seq<Entry>, fs: FileSystem, matches: string -> bool)
    requires !Accepted(fs, matches, e)
    ensures Locate(a + [e] + b, fs, matches) == Locate(a + b, fs, matches)
  {
    LocateAppend(a + [e], b, fs, matches);
    LocateAppend(a, [e], fs, matches);
    LocateAppend(a, b, fs, matches);
    assert Locate([e], fs, matches) == None by {
      assert [e][1..] == [];
    }
  }

  /** Once an entry is accepted, nothing after it in the walk can change the result. */
  lemma LocateStopsAtFirstHit(walk: seq<Entry>, k: int, rest: seq<Entry>, fs: FileSystem, matches: string -> bool)
    requires IsFirstAccepted(walk, fs, matches, k)
    ensures Locate(walk[..k + 1] + rest, fs, matches) == Some(walk[k].path)
  {
    var front := walk[..k + 1];
    assert IsFirstAccepted(front, fs, matches, k);
    assert Locate(front, fs, matches) == Some(walk[k].path);
    LocateAppend(front, rest, fs, matches);
  }

  /**
   * Two file systems with the same readable lines at every path, differing
   * only in whether reading fails after them, give the same result.
   */
  lemma {:induction false} LocateIgnoresReadErrors(walk: seq<Entry>, fs1: FileSystem, fs2: FileSystem, matches: string -> bool)
    requires fs1.Keys == fs2.Keys
    requires forall p :: p in fs1 ==> fs1[p].lines == fs2[p].lines
    ensures Locate(walk, fs1, matches) == Locate(walk, fs2, matches)
  {
    if |walk| != 0 {
      LocateIgnoresReadErrors(walk[1..], fs1, fs2, matches);
    }
  }
}

=== FILE: paths.dfy ===
/**
 * Paths as yielded by the directory walk: a sequence of components shown
 * joined by `/`. Only the two path operations the program uses are
 * modelled: the textual suffix test and `PathBuf::pop`.
 */
module Paths {
  import opened Strings

  datatype Path = Path(components: seq<string>)

  /** The path as text (`to_string_lossy`, `display`). */
  function Display(p: Path): string
    decreases |p.components|
  {
    var cs := p.components;
    if |cs| == 0 then ""
    else if |cs| == 1 then cs[0]
    else Display(Path(cs[..|cs| - 1])) + "/" + cs[|cs| - 1]
  }

  /** The last component. */
  function FileName(p: Path): string
    requires |p.components| > 0
  {
    p.components[|p.components| - 1]
  }

  /** `PathBuf::pop`: truncates to the parent directory; the empty path has none and is left alone. */
  function Pop(p: Path): (r: Path)
    ensures |p.components| > 0 ==> r.components + [FileName(p)] == p.components
    ensures |p.components| == 0 ==> r == p
  {
    if |p.components| == 0 then p else Path(p.components[..|p.components| - 1])
  }

  /** The file-name suffix of Go test files. */
  const TestSuffix: string := "_test.go"

  /** Whether the path text ends with the test-file suffix. */
  predicate IsTestFile(p: Path)
  {
    EndsWith(Display(p), TestSuffix)
  }

  /**
   * Because the suffix holds no `/`, the textual test on the whole path is
   * exactly the test on the file name: a directory called `x_test.go/` does
   * not make its contents test files, and no join can fake the suffix.
   */
  lemma TestFileByName(p: Path)
    ensures IsTestFile(p) <==> |p.components| > 0 && EndsWith(FileName(p), TestSuffix)
  {
    var cs := p.components;
    var n := |TestSuffix|;
    if |cs| >= 2 {
      var d := Display(p);
      var x := FileName(p);
      var front := Display(Path(cs[..|cs| - 1]));
      assert d == front + "/" + x;
      if |x| >= n {
        assert d[|d| - n..] == x[|x| - n..];
      } else if |d| >= n {
        assert forall k :: 0 <= k < n ==> TestSuffix[k] != '/';
        assert d[|d| - n..][n - |x| - 1] == '/';
      }
    }
  }
}

=== FILE: regex.dfy ===
/**
 * The fragment of regular-expression syntax that the program's two patterns
 * use: literal characters (escaped with a backslash when they are
 * metacharacters), `.`, `.*`, `^` and `$`. `Render` writes a pattern as
 * regex text, `Parse` reads such text back, and `Matches` is the unanchored
 * search a line matcher performs (`.` never matches a line terminator).
 */
module Regex {
  import opened Wrappers
  import opened Strings

  datatype Atom =
    | Lit(c: char)   // one literal character
    | AnyChar        // `.`
    | AnyRun         // `.*`
    | LineStart      // `^`
    | LineEnd        // `$`

  type Pattern = seq<Atom>

  /** The characters the regex syntax reserves; a literal one must be escaped. */
  predicate IsMeta(c: char)
  {
    || c == '\\' || c == '.' || c == '+' || c == '*' || c == '?' || c == '(' || c == ')'
    || c == '|' || c == '[' || c == ']' || c == '{' || c == '}' || c == '^' || c == '$'
    || c == '#' || c == '&' || c == '-' || c == '~'
  }

  /**
   * Text with no metacharacter and no line terminator in it means itself when
   * used as a line-matcher pattern.
   */
  predicate PlainText(w: string)
  {
    forall k :: 0 <= k < |w| ==> !IsMeta(w[k]) && w[k] != '\n'
  }

  predicate NoNewline(s: string)
  {
    '\n' !in s
  }

  /** The pattern that matches the text `w` literally. */
  function Lits(w: string): (p: Pattern)
    ensures |p| == |w|
    ensures forall k :: 0 <= k < |w| ==> p[k] == Lit(w[k])
  {
    seq(|w|, k requires 0 <= k < |w| => Lit(w[k]))
  }

  /** A line matcher never matches a line terminator, so none may appear literally. */
  predicate LineSafe(p: Pattern)
  {
    forall k :: 0 <= k < |p| ==> p[k] != Lit('\n')
  }

  function RenderAtom(a: Atom): string
  {
    match a
    case Lit(c) => if IsMeta(c) then ['\\', c] else [c]
    case AnyChar => "."
    case AnyRun => ".*"
    case LineStart => "^"
    case LineEnd => "$"
  }

  /** The regex text of a pattern. */
  function Render(p: Pattern): string
  {
    if |p| == 0 then "" else RenderAtom(p[0]) + Render(p[1..])
  }

  function Cons(a: Atom, rest: Option<Pattern>): Option<Pattern>
  {
    match rest
    case None => None
    case Some(p) => Some([a] + p)
  }

  /**
   * Reads regex text back into a pattern, as building a line matcher does;
   * `None` when the text uses syntax outside the fragment (an unescaped
   * metacharacter other than `.`, `^`, `$`, or a backslash not followed by a
   * metacharacter) or holds a literal line terminator, which a line matcher
   * refuses outside a bracket class (the fragment has no bracket classes).
   */
  function Parse(s: string): Option<Pattern>
    decreases |s|
  {
    if |s| == 0 then Some([])
    else if s[0] == '\\' then
      if 2 <= |s| && IsMeta(s[1]) then Cons(Lit(s[1]), Parse(s[2..])) else None
    else if s[0] == '.' then
      if 2 <= |s| && s[1] == '*' then Cons(AnyRun, Parse(s[2..])) else Cons(AnyChar, Parse(s[1..]))
    else if s[0] == '^' then Cons(LineStart, Parse(s[1..]))
    else if s[0] == '$' then Cons(LineEnd, Parse(s[1..]))
    else if IsMeta(s[0]) || s[0] == '\n' then None
    else Cons(Lit(s[0]), Parse(s[1..]))
  }

  /** Whether pattern `p` matches `s` starting at index `i`. */
  function MatchFrom(p: Pattern, s: string, i: nat): bool
    requires i <= |s|
    decreases |s| - i, |p|
  {
    if |p| == 0 then true
    else match p[0]
      case Lit(c) => i < |s| && s[i] == c && MatchFrom(p[1..], s, i + 1)
      case AnyChar => i < |s| && s[i] != '\n' && MatchFrom(p[1..], s, i + 1)
      case AnyRun => MatchFrom(p[1..], s, i) || (i < |s| && s[i] != '\n' && MatchFrom(p, s, i + 1))
      case LineStart => i == 0 && MatchFrom(p[1..], s, i)
      case LineEnd => i == |s| && MatchFrom(p[1..], s, i)
  }

  /** Unanchored search: `p` matches somewhere in `s`. */
  predicate Matches(p: Pattern, s: string)
  {
    exists i: nat :: i <= |s| && MatchFrom(p, s, i)
  }

  /** The line matcher a compiled pattern stands for. */
  function LineMatcher(p: Pattern): string -> bool
  {
    line => Matches(p, line)
  }

  // ---------------------------------------------------------------------
  // Render / Parse

  lemma RenderAppend(p: Pattern, q: Pattern)
    ensures Render(p + q) == Render(p) + Render(q)
  {
    if |p| != 0 {
      assert (p + q)[1..] == p[1..] + q;
      RenderAppend(p[1..], q);
    } else {
      assert p + q == q;
    }
  }

  lemma RenderCons(a: Atom, p: Pattern)
    ensures Render([a] + p) == RenderAtom(a) + Render(p)
  {
    assert ([a] + p)[1..] == p;
  }

  lemma LitsAppend(v: string, w: string)
    ensures Lits(v + w) == Lits(v) + Lits(w)
  {
    if |v| == 0 {
      assert v + w == w;
    } else {
      assert (v + w)[0] == v[0];
      assert (v + w)[1..] == v[1..] + w;
      LitsAppend(v[1..], w);
    }
  }

  /** Plain text renders as itself. */
  lemma {:induction false} RenderPlain(w: string)
    requires PlainText(w)
    ensures Render(Lits(w)) == w
  {
    if |w| != 0 {
      assert Lits(w)[1..] == Lits(w[1..]);
      assert PlainText(w[1..]) by {
        forall k | 0 <= k < |w[1..]| ensures !IsMeta(w[1..][k]) {
          assert w[1..][k] == w[k + 1];
        }
      }
      RenderPlain(w[1..]);
      assert RenderAtom(Lit(w[0])) == [w[0]];
      assert w == [w[0]] + w[1..];
    }
  }

  /** No rendered pattern begins with a bare `*`. */
  lemma RenderNoLeadingStar(p: Pattern)
    ensures |Render(p)| == 0 || Render(p)[0] != '*'
  {
    if |p| != 0 {
      var t := Render(p[1..]);
      assert Render(p) == RenderAtom(p[0]) + t;
      assert |RenderAtom(p[0])| > 0;
      assert Render(p)[0] == RenderAtom(p[0])[0];
    }
  }

  /**
   * Parsing a rendered atom in front of more rendered text yields that atom
   * first, unless it is a literal line terminator.
   */
  lemma ParseRenderAtom(a: Atom, t: string)
    requires |t| == 0 || t[0] != '*'
    ensures Parse(RenderAtom(a) + t) == if a == Lit('\n') then None else Cons(a, Parse(t))
  {
    var s := RenderAtom(a) + t;
    match a
    case Lit(c) =>
      if IsMeta(c) {
        assert s[0] == '\\' && s[1] == c && s[2..] == t;
      } else {
        assert s[0] == c && s[1..] == t;
      }
    case AnyChar =>
      assert s[0] == '.' && s[1..] == t;
    case AnyRun =>
      assert s[0] == '.' && s[1] == '*' && s[2..] == t;
    case LineStart =>
      assert s[0] == '^' && s[1..] == t;
    case LineEnd =>
      assert s[0] == '$' && s[1..] == t;
  }

  /**
   * Every line-safe pattern of the fragment survives a round trip through its
   * text; the text of any other pattern is refused.
   */
  lemma {:induction false} ParseRender(p: Pattern)
    ensures Parse(Render(p)) == if LineSafe(p) then Some(p) else None
  {
    if |p| == 0 {
    } else {
      RenderNoLeadingStar(p[1..]);
      ParseRenderAtom(p[0], Render(p[1..]));
      ParseRender(p[1..]);
      assert [p[0]] + p[1..] == p;
      assert LineSafe(p) <==> p[0] != Lit('\n') && LineSafe(p[1..]) by {
        forall k | 1 <= k < |p| ensures p[k] == p[1..][k - 1] { }
      }
    }
  }

  /** Within the fragment, text holding a line terminator anywhere never builds a line matcher. */
  lemma {:induction false} ParseRejectsNewline(s: string)
    requires '\n' in s
    ensures Parse(s) == None
    decreases |s|
  {
    if s[0] != '\n' {
      assert '\n' in s[1..] by {
        var k :| 0 <= k < |s| && s[k] == '\n';
        assert s[1..][k - 1] == '\n';
      }
      if s[0] == '\\' {
        if 2 <= |s| && IsMeta(s[1]) {
          assert '\n' in s[2..] by {
            var k :| 0 <= k < |s| && s[k] == '\n';
            assert s[2..][k - 2] == '\n';
          }
          ParseRejectsNewline(s[2..]);
        }
      } else if s[0] == '.' && 2 <= |s| && s[1] == '*' {
        assert '\n' in s[2..] by {
          var k :| 0 <= k < |s| && s[k] == '\n';
          assert s[2..][k - 2] == '\n';
        }
        ParseRejectsNewline(s[2..]);
      } else {
        ParseRejectsNewline(s[1..]);
      }
    }
  }

  // ---------------------------------------------------------------------
  // Matching

  /** A literal run matches exactly where its text occurs. */
  lemma {:induction false} MatchLits(w: string, p: Pattern, s: string, i: nat)
    requires i <= |s|
    ensures MatchFrom(Lits(w) + p, s, i) <==> OccursAt(w, s, i) && MatchFrom(p, s, i + |w|)
    decreases |w|
  {
    if |w| == 0 {
      assert Lits(w) + p == p;
      assert s[i..i] == w;
    } else {
      var q := Lits(w) + p;
      assert q[0] == Lit(w[0]);
      assert q[1..] == Lits(w[1..]) + p;
      OccursAtStep(w, s, i);
      if i < |s| && s[i] == w[0] {
        MatchLits(w[1..], p, s, i + 1);
      }
    }
  }

  /** On a line without terminators, `.*` skips to any later position. */
  lemma {:induction false} MatchAnyRun(p: Pattern, s: string, i: nat)
    requires i <= |s| && NoNewline(s)
    ensures MatchFrom([AnyRun] + p, s, i) <==> exists j :: i <= j <= |s| && MatchFrom(p, s, j)
    decreases |s| - i
  {
    var q := [AnyRun] + p;
    assert q[1..] == p;
    if MatchFrom(q, s, i) {
      if MatchFrom(p, s, i) {
        assert i <= i <= |s| && MatchFrom(p, s, i);
        assert exists j :: i <= j <= |s| && MatchFrom(p, s, j);
        assert MatchFrom([AnyRun] + p, s, i);
      } else {
        assert i < |s| && MatchFrom(q, s, i + 1);
        MatchAnyRun(p, s, i + 1);
        var j :| i + 1 <= j <= |s| && MatchFrom(p, s, j);
        assert i <= j <= |s| && MatchFrom(p, s, j);
      }
    } else {
      forall j: nat | i <= j <= |s| ensures !MatchFrom(p, s, j) {
        if j != i {
          assert s[i] in s;
          MatchAnyRun(p, s, i + 1);
        }
      }
    }
  }

  lemma MatchAnyChar(p: Pattern, s: string, i: nat)
    requires i <= |s|
    ensures MatchFrom([AnyChar] + p, s, i) <==> i < |s| && s[i] != '\n' && MatchFrom(p, s, i + 1)
  {
    assert ([AnyChar] + p)[1..] == p;
  }

  lemma MatchLineStart(p: Pattern, s: string, i: nat)
    requires i <= |s|
    ensures MatchFrom([LineStart] + p, s, i) <==> i == 0 && MatchFrom(p, s, i)
  {
    assert ([LineStart] + p)[1..] == p;
  }

  lemma MatchLineEnd(s: string, i: nat)
    requires i <= |s|
    ensures MatchFrom([LineEnd], s, i) <==> i == |s|
  {
    assert [LineEnd][1..] == [];
  }
}

=== FILE: runner.dfy ===
/**
 * `main`: normalise the name, announce it and the command, locate the
 * declaring file, and replace the process with `go test` run in that
 * file's directory, filtered to the one test.
 */
module Runner {
  import opened Wrappers
  import opened Regex
  import opened TestName
  import opened Paths
  import opened Locator

  /** A program, its arguments and the directory it runs in. */
  datatype Command = Command(program: string, args: seq<string>, dir: Path)

  datatype Outcome =
    | Exec(command: Command)    // the process image is replaced by the command
    | Failed(message: string)   // `main` returns this error

  /** The lines printed on standard output and how the run ends. */
  datatype Invocation = Invocation(stdout: seq<string>, outcome: Outcome)

  /** Stands for the regex crate's message when the search pattern does not compile. */
  const PatternError: string := "invalid search pattern"

  /** The context attached when `exec` returns. */
  const ExecContext: string := "attempted to exec 'go test'"

  /** The error for a name no file declares. */
  function NotFound(name: string): string
  {
    "test not found: " + name
  }

  /**
   * One run of the program on the user's `userName`, over the walk `walk`
   * of the current directory and file contents `fs`. `execFails` stands for
   * the operating system refusing to start `go`.
   */
  function Invoke(userName: string, walk: seq<Entry>, fs: FileSystem, execFails: bool): Invocation
  {
    var name := Normalize(userName);
    var announced := ["Test name: " + name, CommandLine(name)];
    match Parse(SearchPattern(name))
    case None => Invocation(announced, Failed(PatternError))
    case Some(pattern) =>
      match Locate(walk, fs, LineMatcher(pattern))
      case None => Invocation(announced, Failed(NotFound(name)))
      case Some(path) =>
        var command := Command("go", TestArgs(name), Pop(path));
        Invocation(announced + ["found test in file: " + Display(path)],
                   if execFails then Failed(ExecContext) else Exec(command))
  }

  // ---------------------------------------------------------------------
  // Consistency of the name's three uses

  /** Every line of every file is a single line without terminator. */
  ghost predicate LinesAreClean(fs: FileSystem)
  {
    forall p, k :: p in fs && 0 <= k < |fs[p].lines| ==> NoNewline(fs[p].lines[k])
  }

  /** The walk entry is a `*_test.go` regular file with a line declaring test `name`. */
  ghost predicate DeclaresTest(fs: FileSystem, e: Entry, name: string)
  {
    && IsCandidate(e)
    && e.path in fs
    && exists k :: 0 <= k < |fs[e.path].lines| && IsTestDecl(fs[e.path].lines[k], name)
  }

  /** On clean files, the locator's acceptance test is exactly "declares the test". */
  lemma AcceptedIffDeclares(fs: FileSystem, e: Entry, name: string)
    requires LinesAreClean(fs)
    ensures Accepted(fs, LineMatcher(DeclPattern(name)), e) <==> DeclaresTest(fs, e, name)
  {
    if IsCandidate(e) && e.path in fs {
      var lines := fs[e.path].lines;
      forall k | 0 <= k < |lines|
        ensures LineMatcher(DeclPattern(name))(lines[k]) <==> IsTestDecl(lines[k], name)
      {
        DeclPatternMeaning(lines[k], name);
      }
    }
  }

  /** For a plain name, the run is decided by where the locator finds the declaration pattern. */
  lemma InvokeByLocate(userName: string, walk: seq<Entry>, fs: FileSystem, execFails: bool)
    requires PlainText(userName)
    ensures var name := Normalize(userName);
      var found := Locate(walk, fs, LineMatcher(DeclPattern(name)));
      var r := Invoke(userName, walk, fs, execFails);
      && |r.stdout| >= 2
      && r.stdout[..2] == ["Test name: " + name, CommandLine(name)]
      && (found.None? ==> r == Invocation(r.stdout, Failed(NotFound(name))) && |r.stdout| == 2)
      && (found.Some? ==>
            && |r.stdout| == 3
            && r.stdout[2] == "found test in file: " + Display(found.value)
            && r.outcome == if execFails then Failed(ExecContext) else Exec(Command("go", TestArgs(name), Pop(found.value))))
  {
    PlainNormalize(userName);
    SearchPatternParses(Normalize(userName));
  }

  /**
   * A name holding a line terminator never reaches the search: within the
   * fragment the terminator stands outside any bracket class, where the line
   * matcher refuses it, and the run ends with that error after the two
   * announcements.
   */
  lemma NewlineNameRejected(userName: string, walk: seq<Entry>, fs: FileSystem, execFails: bool)
    requires '\n' in userName
    ensures Invoke(userName, walk, fs, execFails) == Invocation(
      ["Test name: " + Normalize(userName), CommandLine(Normalize(userName))],
      Failed(PatternError))
  {
    var name := Normalize(userName);
    var text := SearchPattern(name);
    var k :| 0 <= k < |userName| && userName[k] == '\n';
    var at := |"func "| + |name| - |userName| + k;
    assert text[at] == '\n' by {
      assert name[|name| - |userName| + k] == '\n';
    }
    ParseRejectsNewline(text);
  }

  lemma PlainNormalize(userName: string)
    requires PlainText(userName)
    ensures PlainText(Normalize(userName))
  {
    var n := Normalize(userName);
    if n != userName {
      assert n == Prefix + userName;
      forall k | 0 <= k < |n| ensures !IsMeta(n[k]) {
        if k >= |Prefix| {
          assert n[k] == userName[k - |Prefix|];
        }
      }
    }
  }

  /**
   * When the program gets as far as running `go test`, the announced command
   * line is the command run.
   */
  lemma AnnouncedCommandIsRun(userName: string, walk: seq<Entry>, fs: FileSystem)
    ensures Invoke(userName, walk, fs, false).outcome.Exec? ==>
      var c := Invoke(userName, walk, fs, false).outcome.command;
      Invoke(userName, walk, fs, false).stdout[1] == "Command: " + ShellLine(c.program, c.args)
  {
    CommandLineAnnouncesExec(Normalize(userName));
  }

  /**
   * For a name without regex metacharacters, `go test` runs only in the
   * directory of the first walked `*_test.go` file declaring the normalised
   * test, and that file is the one announced.
   */
  lemma RunTargetsDeclaringFile(userName: string, walk: seq<Entry>, fs: FileSystem)
    requires PlainText(userName) && LinesAreClean(fs)
    ensures var r := Invoke(userName, walk, fs, false);
      r.outcome.Exec? ==>
        exists k ::
          && 0 <= k < |walk|
          && DeclaresTest(fs, walk[k], Normalize(userName))
          && (forall j :: 0 <= j < k ==> !DeclaresTest(fs, walk[j], Normalize(userName)))
          && r.outcome.command.dir == Pop(walk[k].path)
          && r.stdout[2] == "found test in file: " + Display(walk[k].path)
  {
    var name := Normalize(userName);
    var m := LineMatcher(DeclPattern(name));
    InvokeByLocate(userName, walk, fs, false);
    var r := Invoke(userName, walk, fs, false);
    if r.outcome.Exec? {
      var k :| IsFirstAccepted(walk, fs, m, k) && Locate(walk, fs, m).value == walk[k].path;
      FirstAcceptedIsFirstDeclaring(walk, fs, name, k);
      assert r.outcome.command.dir == Pop(walk[k].path);
      assert r.stdout[2] == "found test in file: " + Display(walk[k].path);
    }
  }

  lemma FirstAcceptedIsFirstDeclaring(walk: seq<Entry>, fs: FileSystem, name: string, k: int)
    requires LinesAreClean(fs)
    requires IsFirstAccepted(walk, fs, LineMatcher(DeclPattern(name)), k)
    ensures 0 <= k < |walk| && DeclaresTest(fs, walk[k], name)
    ensures forall j :: 0 <= j < k ==> !DeclaresTest(fs, walk[j], name)
  {
    AcceptedIffDeclares(fs, walk[k], name);
    forall j | 0 <= j < k ensures !DeclaresTest(fs, walk[j], name) {
      AcceptedIffDeclares(fs, walk[j], name);
    }
  }

  /**
   * Conversely, when the walk holds a `*_test.go` file declaring the
   * normalised test, the program announces the first such file and runs
   * `go test` in its directory with the filter for that name.
   */
  lemma FirstDeclaringFileIsRun(userName: string, walk: seq<Entry>, fs: FileSystem, k: int)
    requires PlainText(userName) && LinesAreClean(fs)
    requires 0 <= k < |walk| && DeclaresTest(fs, walk[k], Normalize(userName))
    requires forall j :: 0 <= j < k ==> !DeclaresTest(fs, walk[j], Normalize(userName))
    ensures Invoke(userName, walk, fs, false) == Invocation(
      [ "Test name: " + Normalize(userName),
        CommandLine(Normalize(userName)),
        "found test in file: " + Display(walk[k].path) ],
      Exec(Command("go", TestArgs(Normalize(userName)), Pop(walk[k].path))))
  {
    var name := Normalize(userName);
    var m := LineMatcher(DeclPattern(name));
    FirstDeclaringIsFirstAccepted(walk, fs, name, k);
    assert Locate(walk, fs, m) == Some(walk[k].path);
    InvokeByLocate(userName, walk, fs, false);
  }

  lemma FirstDeclaringIsFirstAccepted(walk: seq<Entry>, fs: FileSystem, name: string, k: int)
    requires LinesAreClean(fs)
    requires 0 <= k < |walk| && DeclaresTest(fs, walk[k], name)
    requires forall j :: 0 <= j < k ==> !DeclaresTest(fs, walk[j], name)
    ensures IsFirstAccepted(walk, fs, LineMatcher(DeclPattern(name)), k)
  {
    var m := LineMatcher(DeclPattern(name));
    AcceptedIffDeclares(fs, walk[k], name);
    forall j | 0 <= j < k ensures !Accepted(fs, m, walk[j]) {
      AcceptedIffDeclares(fs, walk[j], name);
    }
  }

  /**
   * For a name without regex metacharacters, the `-run` filter handed to
   * `go test` selects the normalised name — the one the search looked
   * for — and no other test name.
   */
  lemma RunFilterSelectsSearchedName(userName: string, walk: seq<Entry>, fs: FileSystem, test: string)
    requires PlainText(userName)
    ensures var r := Invoke(userName, walk, fs, false);
      r.outcome.Exec? ==>
        && r.outcome.command.program == "go"
        && Parse(r.outcome.command.args[3]) == Some(FilterPattern(Normalize(userName)))
        && (Matches(FilterPattern(Normalize(userName)), test) <==> test == Normalize(userName))
  {
    var name := Normalize(userName);
    PlainNormalize(userName);
    RunFilterParses(name);
    FilterSelectsExactly(name, test);
  }

  /**
   * For a name without regex metacharacters, the run stops with
   * "test not found: NAME", and nothing is executed, exactly when no walked
   * `*_test.go` regular file declares the normalised test.
   */
  lemma NotFoundIffNoDeclaration(userName: string, walk: seq<Entry>, fs: FileSystem, execFails: bool)
    requires PlainText(userName) && LinesAreClean(fs)
    ensures var r := Invoke(userName, walk, fs, execFails);
      r.outcome == Failed(NotFound(Normalize(userName))) <==>
        forall k :: 0 <= k < |walk| ==> !DeclaresTest(fs, walk[k], Normalize(userName))
    ensures var r := Invoke(userName, walk, fs, execFails);
      r.outcome == Failed(NotFound(Normalize(userName))) ==> |r.stdout| == 2
  {
    var name := Normalize(userName);
    var m := LineMatcher(DeclPattern(name));
    InvokeByLocate(userName, walk, fs, execFails);
    forall k | 0 <= k < |walk| ensures Accepted(fs, m, walk[k]) <==> DeclaresTest(fs, walk[k], name) {
      AcceptedIffDeclares(fs, walk[k], name);
    }
    assert NotFound(name) != ExecContext by {
      assert NotFound(name)[0] == 't' && ExecContext[0] == 'a';
    }
  }
}

=== FILE: scenarios.dfy ===
/** Whole runs of the program on small concrete trees. */
module Scenarios {
  import opened Wrappers
  import opened Strings
  import opened Regex
  import opened TestName
  import opened Paths
  import opened Searcher
  import opened Locator
  import opened Runner

  const TestFile: Path := Path([".", "pkg", "foo_test.go"])

  /** The walk of a tree holding one package directory with one test file. */
  function OnePackageWalk(): seq<Entry>
  {
    [ Dirent(Path(["."]), Some(Dir)),
      Dirent(Path([".", "pkg"]), Some(Dir)),
      WalkError("permission denied"),
      Dirent(TestFile, Some(File)) ]
  }

  function OneFile(line: string): FileSystem
  {
    map[TestFile := FileData([line], false)]
  }

  lemma TestFileIsCandidate()
    ensures IsCandidate(Dirent(TestFile, Some(File)))
    ensures Display(TestFile) == "./pkg/foo_test.go"
  {
    assert Display(TestFile) == "./pkg/foo_test.go";
    EndsWithAppend("./pkg/foo", TestSuffix);
    assert "./pkg/foo" + TestSuffix == "./pkg/foo_test.go";
  }

  lemma BarDeclaration()
    ensures IsTestDecl("func TestBar(t *testing.T) {}", "TestBar")
  {
    var line := "func TestBar(t *testing.T) {}";
    assert OccursAt(DeclHead("TestBar"), line, 0);
    assert OccursAt(ParamMarker, line, 14);
    assert OccursAt(DeclTail, line, 24);
  }

  /**
   * The walk error and the directories are passed over: with any matcher
   * that accepts the file's line, the locator returns `pkg/foo_test.go`.
   */
  lemma LocatePassesOverErrorsAndDirectories(line: string, m: string -> bool)
    requires m(line)
    ensures Locate(OnePackageWalk(), OneFile(line), m) == Some(TestFile)
  {
    TestFileIsCandidate();
    var fs := OneFile(line);
    assert fs[TestFile].lines[0] == line;
    assert IsFirstAccepted(OnePackageWalk(), fs, m, 3);
  }

  /** A line lacking ` *testing` is never taken for a declaration of the test. */
  lemma DeclarationWithoutContext()
    ensures !Matches(DeclPattern("TestBar"), "func TestBar() {}")
  {
    var line := "func TestBar() {}";
    forall j: nat ensures !OccursAt(ParamMarker, line, j) {
      if j + |ParamMarker| <= |line| {
        assert line[j..j + |ParamMarker|][1] == line[j + 1];
      }
    }
    NoParamNoMatch(line, "TestBar");
  }

  /** The tree's single file declares `TestBar` and nothing before it in the walk declares anything. */
  lemma OnlyDeclaringEntry(line: string)
    requires line == "func TestBar(t *testing.T) {}"
    ensures LinesAreClean(OneFile(line))
    ensures DeclaresTest(OneFile(line), OnePackageWalk()[3], "TestBar")
    ensures forall j :: 0 <= j < 3 ==> !DeclaresTest(OneFile(line), OnePackageWalk()[j], "TestBar")
  {
    var fs := OneFile(line);
    TestFileIsCandidate();
    BarDeclaration();
    assert fs[TestFile].lines[0] == line;
    assert NoNewline(line);
  }

  /** The strings the run produces for `TestBar` in `./pkg/foo_test.go`. */
  lemma BarStrings()
    ensures "Test name: " + "TestBar" == "Test name: TestBar"
    ensures CommandLine("TestBar") == "Command: go test -v -run \"^TestBar$\""
    ensures TestArgs("TestBar") == ["test", "-v", "-run", "^TestBar$"]
    ensures Pop(TestFile) == Path([".", "pkg"])
    ensures "found test in file: " + Display(TestFile) == "found test in file: ./pkg/foo_test.go"
  {
    assert RunFilter("TestBar") == "^TestBar$";
    TestFileIsCandidate();
  }

  /**
   * The user asks for `Bar`; `pkg/foo_test.go` declares `TestBar`. Despite a
   * walk error on the way, the program announces `TestBar`, reports the
   * file, and runs `go test -v -run "^TestBar$"` in `./pkg`.
   */
  lemma FoundInPackage(userName: string, line: string)
    requires userName == "Bar" && line == "func TestBar(t *testing.T) {}"
    ensures Invoke(userName, OnePackageWalk(), OneFile(line), false)
      == Invocation(
           [ "Test name: TestBar",
             "Command: go test -v -run \"^TestBar$\"",
             "found test in file: ./pkg/foo_test.go" ],
           Exec(Command("go", ["test", "-v", "-run", "^TestBar$"], Path([".", "pkg"]))))
  {
    assert Normalize(userName) == "TestBar";
    assert PlainText(userName);
    OnlyDeclaringEntry(line);
    FirstDeclaringFileIsRun(userName, OnePackageWalk(), OneFile(line), 3);
    BarStrings();
  }

  lemma NoEntryDeclares(line: string)
    requires line == "func TestBar() {}"
    ensures LinesAreClean(OneFile(line))
    ensures forall k :: 0 <= k < |OnePackageWalk()| ==> !DeclaresTest(OneFile(line), OnePackageWalk()[k], "TestBar")
  {
    var fs := OneFile(line);
    assert fs[TestFile].lines[0] == line;
    assert NoNewline(line);
    DeclarationWithoutContext();
    DeclPatternMeaning(line, "TestBar");
  }

  /**
   * The user asks for `TestBar`, but the only test file declares
   * `func TestBar() {}`, without the `*testing.T` parameter: the run ends
   * with "test not found: TestBar" after the two announcements, and nothing
   * is executed.
   */
  lemma NotFoundWithoutContextParameter(userName: string, line: string)
    requires userName == "TestBar" && line == "func TestBar() {}"
    ensures Invoke(userName, OnePackageWalk(), OneFile(line), false)
      == Invocation(
           [ "Test name: TestBar", "Command: go test -v -run \"^TestBar$\"" ],
           Failed("test not found: TestBar"))
  {
    assert Normalize(userName) == "TestBar";
    assert PlainText(userName);
    NoEntryDeclares(line);
    NotFoundIffNoDeclaration(userName, OnePackageWalk(), OneFile(line), false);
    InvokeByLocate(userName, OnePackageWalk(), OneFile(line), false);
    BarStrings();
    assert NotFound("TestBar") == "test not found: TestBar";
  }
}

=== FILE: searcher.dfy ===
/**
 * The line searcher (`Searcher::search_path`) as the program drives it:
 * open the file, hand each line to the matcher, report the first matching
 * line to the sink and stop when the sink says so. Opening or reading the
 * file can fail; the error is returned and the sink keeps what it saw.
 */
module Searcher {
  import opened Wrappers
  import opened Sink

  /**
   * The contents of a file as the searcher sees it: the lines it can read,
   * and whether reading fails after them.
   */
  datatype FileData = FileData(lines: seq<string>, failsAfter: bool)

  datatype SearchError =
    | CannotOpen   // the file could not be opened
    | ReadFailed   // reading stopped with an I/O error before the end

  /** Some line of the file satisfies the matcher. */
  predicate HasMatch(matches: string -> bool, lines: seq<string>)
  {
    exists k :: 0 <= k < |lines| && matches(lines[k])
  }

  /**
   * Searches `file` (`None` when it cannot be opened). `scanned` is the
   * number of lines read: reading stops at the first matching line.
   */
  method SearchPath(matches: string -> bool, file: Option<FileData>, sink: SimpleSink)
    returns (after: SimpleSink, error: Option<SearchError>, scanned: nat)
    ensures after.found <==> sink.found || (file.Some? && HasMatch(matches, file.value.lines))
    ensures file.None? ==> error == Some(CannotOpen) && scanned == 0
    ensures file.Some? ==>
      && scanned <= |file.value.lines|
      && (forall k :: 0 <= k < scanned - 1 ==> !matches(file.value.lines[k]))
      && (HasMatch(matches, file.value.lines) ==> 0 < scanned && matches(file.value.lines[scanned - 1]))
      && (!HasMatch(matches, file.value.lines) ==> scanned == |file.value.lines|)
      && (error.Some? <==> file.value.failsAfter && !HasMatch(matches, file.value.lines))
      && (error.Some? ==> error == Some(ReadFailed))
  {
    after := sink;
    scanned := 0;
    if file.None? {
      return after, Some(CannotOpen), 0;
    }
    var lines := file.value.lines;
    var stopped := false;
    while scanned < |lines| && !stopped
      invariant scanned <= |lines|
      invariant forall k :: 0 <= k < scanned - 1 ==> !matches(lines[k])
      invariant !stopped ==> after == sink && forall k :: 0 <= k < scanned ==> !matches(lines[k])
      invariant stopped ==> after.found && 0 < scanned && matches(lines[scanned - 1])
    {
      if matches(lines[scanned]) {
        var reply := Matched(after);
        after := reply.0;
        stopped := !reply.1;
      }
      scanned := scanned + 1;
    }
    if !stopped && file.value.failsAfter {
      error := Some(ReadFailed);
    } else {
      error := None;
    }
  }
}

=== FILE: sink.dfy ===
/**
 * `SimpleSink`: the one-flag receiver of search results. The searcher calls
 * `Matched` on every matching line; the sink records the hit and asks the
 * searcher to stop reading the file.
 */
module Sink {

  datatype SimpleSink = SimpleSink(found: bool)

  /** A fresh sink has seen no match. */
  function New(): (s: SimpleSink)
    ensures !s.found
  {
    SimpleSink(false)
  }

  /** Clears the flag, whatever the sink saw before. */
  function Reset(s: SimpleSink): (r: SimpleSink)
    ensures !r.found
    ensures r == New()
  {
    SimpleSink(false)
  }

  /**
   * A matching line: the sink is marked found and the answer `false` tells
   * the searcher not to look for further matches in this file.
   */
  function Matched(s: SimpleSink): (r: (SimpleSink, bool))
    ensures r.0.found
    ensures !r.1
  {
    (SimpleSink(true), false)
  }
}

=== FILE: strings.dfy ===
/** String relations shared by the name, path and pattern modules. */
module Strings {

  /** `s.starts_with(prefix)` */
  predicate StartsWith(s: string, prefix: string)
  {
    |prefix| <= |s| && s[..|prefix|] == prefix
  }

  /** `s.ends_with(suffix)` */
  predicate EndsWith(s: string, suffix: string)
  {
    |suffix| <= |s| && s[|s| - |suffix|..] == suffix
  }

  /** `w` occurs in `s` starting at index `i`. */
  predicate OccursAt(w: string, s: string, i: nat)
  {
    i + |w| <= |s| && s[i..i + |w|] == w
  }

  /** An occurrence is its first character followed by an occurrence of the rest. */
  lemma OccursAtStep(w: string, s: string, i: nat)
    requires |w| > 0
    ensures OccursAt(w, s, i) <==> i < |s| && s[i] == w[0] && OccursAt(w[1..], s, i + 1)
  {
    if i + |w| <= |s| {
      assert s[i..i + |w|] == [s[i]] + s[i + 1..i + 1 + |w[1..]|];
      assert w == [w[0]] + w[1..];
    }
  }

  /** A string ends with any of its own suffixes. */
  lemma EndsWithAppend(s: string, t: string)
    ensures EndsWith(s + t, t)
  {
    assert (s + t)[|s + t| - |t|..] == t;
  }

  /** A string starts with any of its own prefixes. */
  lemma StartsWithAppend(s: string, t: string)
    ensures StartsWith(s + t, s)
  {
    assert (s + t)[..|s|] == s;
  }
}

=== FILE: test_name.dfy ===
/**
 * The test name and the three strings built from it: the search pattern
 * that finds the declaring file, the announced command line, and the
 * anchored filter handed to `go test -run`.
 */
module TestName {
  import opened Wrappers
  import opened Strings
  import opened Regex

  /** The prefix every Go test function name carries. */
  const Prefix: string := "Test"

  /** Gives the user's name the `Test` prefix unless it already has it. */
  function Normalize(name: string): (r: string)
    ensures StartsWith(r, Prefix)
    ensures EndsWith(r, name)
    ensures r == name <==> StartsWith(name, Prefix)
    ensures |r| == if StartsWith(name, Prefix) then |name| else |Prefix| + |name|
  {
    StartsWithAppend(Prefix, name);
    EndsWithAppend(Prefix, name);
    if StartsWith(name, Prefix) then name else Prefix + name
  }

  /**
   * The contract of `Normalize` pins its result down: for a name without the
   * prefix, the only string it allows is `Test` followed by the name.
   */
  lemma NormalizeContractExact(name: string, r: string)
    requires !StartsWith(name, Prefix)
    requires StartsWith(r, Prefix) && EndsWith(r, name) && |r| == |Prefix| + |name|
    ensures r == Prefix + name
  {
    assert r == r[..|Prefix|] + r[|Prefix|..];
  }

  /** Normalising a normalised name changes nothing. */
  lemma NormalizeIdempotent(name: string)
    ensures Normalize(Normalize(name)) == Normalize(name)
  {
  }

  /**
   * Two user inputs select the same test exactly when they are equal or one
   * is the other with the `Test` prefix written out.
   */
  lemma NormalizeSameTest(a: string, b: string)
    ensures Normalize(a) == Normalize(b) <==>
      a == b || (a == Prefix + b && !StartsWith(b, Prefix)) || (b == Prefix + a && !StartsWith(a, Prefix))
  {
    StartsWithAppend(Prefix, a);
    StartsWithAppend(Prefix, b);
    if !StartsWith(a, Prefix) && !StartsWith(b, Prefix) && Normalize(a) == Normalize(b) {
      assert (Prefix + a)[|Prefix|..] == a;
      assert (Prefix + b)[|Prefix|..] == b;
    }
  }

  // ---------------------------------------------------------------------
  // The search pattern `func NAME\(.* \*testing.T\)`

  /** Regex text of the declaration search for `name`. */
  function SearchPattern(name: string): string
  {
    "func " + name + "\\(.* \\*testing.T\\)"
  }

  /** The literal text before the parameter list's contents. */
  function DeclHead(name: string): string
  {
    "func " + name + "("
  }

  const ParamMarker: string := " *testing"
  const DeclTail: string := "T)"

  /** The pattern the search text denotes. */
  function DeclPattern(name: string): Pattern
  {
    Lits(DeclHead(name)) + ([AnyRun] + (Lits(ParamMarker) + ([AnyChar] + Lits(DeclTail))))
  }

  /**
   * What the search pattern accepts: a line containing `func NAME(`, then,
   * anywhere after it, ` *testing`, one arbitrary character and `T)`.
   */
  ghost predicate IsTestDecl(line: string, name: string)
  {
    exists i: nat, j: nat ::
      && OccursAt(DeclHead(name), line, i)
      && i + |DeclHead(name)| <= j
      && OccursAt(ParamMarker, line, j)
      && OccursAt(DeclTail, line, j + |ParamMarker| + 1)
  }

  lemma RenderDeclHead(name: string)
    requires PlainText(name)
    ensures Render(Lits(DeclHead(name))) == "func " + name + "\\("
  {
    LitsAppend("func " + name, "(");
    LitsAppend("func ", name);
    assert DeclHead(name) == ("func " + name) + "(";
    RenderPlain("func ");
    RenderPlain(name);
    assert Render(Lits("(")) == "\\(";
    RenderAppend(Lits("func "), Lits(name));
    RenderAppend(Lits("func ") + Lits(name), Lits("("));
  }

  lemma LitsParamMarker()
    ensures Lits(ParamMarker) == [Lit(' ')] + ([Lit('*')] + Lits("testing"))
  {
  }

  lemma RenderSpaceStar(t: Pattern, text: string)
    requires Render(t) == text
    ensures Render([Lit(' ')] + ([Lit('*')] + t)) == " \\*" + text
  {
    RenderCons(Lit(' '), [Lit('*')] + t);
    RenderCons(Lit('*'), t);
    assert RenderAtom(Lit(' ')) == " ";
    assert RenderAtom(Lit('*')) == "\\*";
  }

  lemma RenderTesting()
    ensures Render(Lits("testing")) == "testing"
  {
  }

  lemma RenderParamMarker()
    ensures Render(Lits(ParamMarker)) == " \\*testing"
  {
    LitsParamMarker();
    RenderTesting();
    RenderSpaceStar(Lits("testing"), "testing");
  }

  lemma RenderDeclTail()
    ensures Render([AnyChar] + Lits(DeclTail)) == ".T\\)"
  {
    LitsAppend("T", ")");
    assert DeclTail == "T" + ")";
    RenderPlain("T");
    assert Render(Lits(")")) == "\\)";
    RenderAppend(Lits("T"), Lits(")"));
    assert Render([AnyChar]) == ".";
    RenderAppend([AnyChar], Lits(DeclTail));
  }

  /** Regex text of everything after `func NAME(` in the declaration pattern. */
  lemma RenderDeclRest()
    ensures Render([AnyRun] + (Lits(ParamMarker) + ([AnyChar] + Lits(DeclTail)))) == ".* \\*testing.T\\)"
  {
    var tail := [AnyChar] + Lits(DeclTail);
    RenderParamMarker();
    RenderDeclTail();
    RenderAppend(Lits(ParamMarker), tail);
    assert Render([AnyRun]) == ".*";
    RenderAppend([AnyRun], Lits(ParamMarker) + tail);
  }

  /** No part of the declaration pattern is a literal line terminator. */
  lemma DeclPatternLineSafe(name: string)
    requires PlainText(name)
    ensures LineSafe(DeclPattern(name))
  {
    var h := DeclHead(name);
    var rest := [AnyRun] + (Lits(ParamMarker) + ([AnyChar] + Lits(DeclTail)));
    forall k | 0 <= k < |h| ensures h[k] != '\n' {
      if 5 <= k < 5 + |name| {
        assert h[k] == name[k - 5];
      }
    }
    forall k | 0 <= k < |DeclPattern(name)| ensures DeclPattern(name)[k] != Lit('\n') {
      if k >= |h| {
        assert DeclPattern(name)[k] == rest[k - |h|];
      }
    }
  }

  /** The search text is well formed and reads back as `DeclPattern`. */
  lemma SearchPatternParses(name: string)
    requires PlainText(name)
    ensures Parse(SearchPattern(name)) == Some(DeclPattern(name))
  {
    var rest := [AnyRun] + (Lits(ParamMarker) + ([AnyChar] + Lits(DeclTail)));
    RenderDeclHead(name);
    RenderDeclRest();
    RenderAppend(Lits(DeclHead(name)), rest);
    assert SearchPattern(name) == ("func " + name + "\\(") + ".* \\*testing.T\\)";
    DeclPatternLineSafe(name);
    ParseRender(DeclPattern(name));
  }

  /** The part of the declaration pattern after `.*`, anchored at `j`. */
  lemma ParamTailMeaning(line: string, j: nat)
    requires j <= |line| && NoNewline(line)
    ensures MatchFrom(Lits(ParamMarker) + ([AnyChar] + Lits(DeclTail)), line, j) <==>
      OccursAt(ParamMarker, line, j) && OccursAt(DeclTail, line, j + |ParamMarker| + 1)
  {
    var k := j + |ParamMarker|;
    MatchLits(ParamMarker, [AnyChar] + Lits(DeclTail), line, j);
    if k <= |line| {
      MatchAnyChar(Lits(DeclTail), line, k);
      if k < |line| {
        assert line[k] in line;
        MatchLits(DeclTail, [], line, k + 1);
        assert Lits(DeclTail) + [] == Lits(DeclTail);
      }
    }
  }

  /** On a single line, the declaration pattern matches exactly the `IsTestDecl` lines. */
  lemma DeclPatternMeaning(line: string, name: string)
    requires NoNewline(line)
    ensures Matches(DeclPattern(name), line) <==> IsTestDecl(line, name)
  {
    var h := DeclHead(name);
    var rest := Lits(ParamMarker) + ([AnyChar] + Lits(DeclTail));
    if Matches(DeclPattern(name), line) {
      var i: nat :| i <= |line| && MatchFrom(DeclPattern(name), line, i);
      MatchLits(h, [AnyRun] + rest, line, i);
      MatchAnyRun(rest, line, i + |h|);
      var j :| i + |h| <= j <= |line| && MatchFrom(rest, line, j);
      ParamTailMeaning(line, j);
    }
    if IsTestDecl(line, name) {
      var i: nat, j: nat :|
        && OccursAt(h, line, i)
        && i + |h| <= j
        && OccursAt(ParamMarker, line, j)
        && OccursAt(DeclTail, line, j + |ParamMarker| + 1);
      ParamTailMeaning(line, j);
      MatchAnyRun(rest, line, i + |h|);
      MatchLits(h, [AnyRun] + rest, line, i);
      assert MatchFrom(DeclPattern(name), line, i);
    }
  }

  /** A line without the `*testing` parameter is never taken for the declaration. */
  lemma NoParamNoMatch(line: string, name: string)
    requires NoNewline(line)
    requires forall j: nat :: !OccursAt(ParamMarker, line, j)
    ensures !Matches(DeclPattern(name), line)
  {
    DeclPatternMeaning(line, name);
  }

  // ---------------------------------------------------------------------
  // The run filter `^NAME$` and the announced command

  /** The `-run` argument: the name anchored at both ends. */
  function RunFilter(name: string): string
  {
    "^" + name + "$"
  }

  function FilterPattern(name: string): Pattern
  {
    [LineStart] + (Lits(name) + [LineEnd])
  }

  /** The arguments given to `go`. */
  function TestArgs(name: string): (args: seq<string>)
    ensures |args| == 4 && args[3] == RunFilter(name)
  {
    ["test", "-v", "-run", RunFilter(name)]
  }

  /** The progress line announcing the command. */
  function CommandLine(name: string): string
  {
    "Command: go test -v -run \"^" + name + "$\""
  }

  /** The shell spelling of `program args…` with the final argument quoted. */
  function ShellLine(program: string, args: seq<string>): string
    requires |args| > 0
    decreases |args|
  {
    if |args| == 1 then program + " \"" + args[0] + "\""
    else ShellLine(program + " " + args[0], args[1..])
  }

  /** The announced command line spells out exactly the program and arguments executed. */
  lemma CommandLineAnnouncesExec(name: string)
    ensures CommandLine(name) == "Command: " + ShellLine("go", TestArgs(name))
  {
    var args := TestArgs(name);
    assert args[1..] == ["-v", "-run", RunFilter(name)];
    assert args[1..][1..] == ["-run", RunFilter(name)];
    assert args[1..][1..][1..] == [RunFilter(name)];
    assert ShellLine("go", args) == ShellLine("go" + " " + "test", args[1..]);
    assert ShellLine("go" + " " + "test", args[1..])
        == ShellLine("go" + " " + "test" + " " + "-v", args[1..][1..]);
    assert ShellLine("go" + " " + "test" + " " + "-v", args[1..][1..])
        == ShellLine("go" + " " + "test" + " " + "-v" + " " + "-run", args[1..][1..][1..]);
    assert "go" + " " + "test" + " " + "-v" + " " + "-run" == "go test -v -run";
  }

  /** The filter text is well formed and reads back as `FilterPattern`. */
  lemma RunFilterParses(name: string)
    requires PlainText(name)
    ensures Parse(RunFilter(name)) == Some(FilterPattern(name))
  {
    var p := FilterPattern(name);
    RenderPlain(name);
    RenderAppend(Lits(name), [LineEnd]);
    RenderAppend([LineStart], Lits(name) + [LineEnd]);
    assert Render([LineEnd]) == "$";
    assert Render([LineStart]) == "^";
    assert Render(p) == RunFilter(name);
    ParseRender(p);
  }

  /** The run filter selects exactly the test called `name` and no other. */
  lemma FilterSelectsExactly(name: string, test: string)
    ensures Matches(FilterPattern(name), test) <==> test == name
  {
    var rest := Lits(name) + [LineEnd];
    MatchLineStart(rest, test, 0);
    MatchLits(name, [LineEnd], test, 0);
    if |name| <= |test| {
      MatchLineEnd(test, |name|);
    }
    if Matches(FilterPattern(name), test) {
      var i: nat :| i <= |test| && MatchFrom(FilterPattern(name), test, i);
      MatchLineStart(rest, test, i);
    }
    if test == name {
      assert test[0..|name|] == name;
      assert MatchFrom(FilterPattern(name), test, 0);
    }
  }
}

=== FILE: wrappers.dfy ===
/** The program's `Option`: a value that may be absent. */
module Wrappers {

  datatype Option<+T> = None | Some(value: T)
}
